=== FILE: README.md ===
# Flash-store storefront, modelled in Dafny

The storefront has two tiers. A Flask server (`exe.py`) keeps a product list and click
counters in memory and answers a small JSON API. A browser script (`script.py.js`)
renders product cards, switches the page between its landing sections and a search
results view, and opens an admin overlay. This project models the logic under both
tiers as pure functions over immutable records and proves properties about them.

- `base.dfy` (`Base`): `Option`, and `Result`. A `Result` is a handler's JSON reply, or the
  HTTP status Flask answers with when the handler raises.
- `json.dfy` (`Json`): decoded JSON values. It gives Python's and JavaScript's notions of
  truth, which differ on `[]` and `{}`.
- `text.dfy` (`Text`): `String.prototype.trim` over the full ECMAScript white-space set,
  with a declarative definition that it provably meets, and uniquely so. It also has `str.lower` on ASCII letters.
- `decimal.dfy` (`Decimal`): Python's `str(n)` for naturals and its inverse.
- `seqs.dfy` (`Seqs`): filtering list comprehensions and the
  subsequence relation.
- `catalog.dfy` (`Catalog`): the product record, the seeded product list, the admin
  addresses and the counters.
- `store.dfy` (`Store`): the handlers `get_products`, `get_flash_deals`, `admin_login`,
  `track_click` and `add_product`. It also proves that ids stay unique under any run of
  additions.
- `cards.dfy` (`Cards`): `createCard` as an abstract card: badges, prices shown and the
  wishlist button. It also has `renderProducts` and `toggleWishlist`.
- `view.dfy` (`View`): the page as an explicit record. Each user action is a function
  from the page before to the page after plus the requests it sends. The actions are
  search, category click, navigate home, the admin overlay, results display, buying
  and the login reply.
- `storefront.dfy` (`Storefront`): properties that cross the two tiers.

`executeSearch` never rewrites the search box; only `searchCategory` sets it
(script.py.js:148).

Python's exceptions are modelled as `Err(500)`. The category filter calls `.lower()` on a
category that is not a string. The login and add-product handlers call `.get` on a body
that is not a JSON object. A search is modelled as an emitted `ProductsRequest`, not as
its completion. Clocks, timers, randomness and the DOM are not part of the model.

## Model

| member | source | states |
|---|---|---|
| `Store.GetProducts` | exe.py:48-55 | With no category, or an empty one, the whole list is returned. Otherwise the result is an order-preserving subsequence of the list. It holds only products whose category lowercases to the lowercased query, each as many times as it is listed. It fails with status 500 exactly when some stored category is not a string. |
| `Store.CategoryCaseInsensitive` | exe.py:53 | Two queries that lowercase alike get the same answer. |
| `Store.LowercasedQuerySameAnswer` | exe.py:53 | Lowercasing a query first gives the same answer as the query itself. |
| `Store.SeedFashionQuery` | exe.py:48-55 | On the seeded list, the query `Fashion` returns the handbag and then the sunglasses. |
| `Seqs.Filter` | exe.py:53 | A comprehension with an `if` keeps only elements passing the test and keeps every element that passes. It preserves their order. |
| `Text.Lower` | exe.py:53 | Lowering keeps the length and lowers each character on its own. |
| `Seqs.FilterMultiplicity` | exe.py:60 | A kept value occurs in the result as often as in the input. A dropped value does not occur. |
| `Store.FlashDeals` | exe.py:57-61 | Flash deals are an order-preserving subsequence of the list. They are exactly the products whose `isFlash` Python finds true, each as many times as it is listed. |
| `Store.FlashDealsAreListed` | exe.py:55-60 | Every flash deal is also in the unfiltered product list. |
| `Json.PyTruthyImpliesJsTruthy` | exe.py:60 | Any value Python finds true, JavaScript finds true too. |
| `Json.TruthinessDisagreement` | exe.py:60 | The two languages disagree only on `[]` and `{}`. |
| `Json.Get` | exe.py:72 | `dict.get` gives the stored value for a present key and the default for a missing one. |
| `Store.AdminLogin` | exe.py:68-77 | Login succeeds with status 200 exactly when the posted `email` is a string in the admin list. Otherwise it fails with status 401. A body that is not an object makes it fail with 500. |
| `Store.AdminLoginAcceptsExactly` | exe.py:74-77 | A posted address is accepted exactly when it equals one of the two configured addresses. |
| `Store.AdminLoginCaseSensitive` | exe.py:74-77 | The admin address with its local part upper-cased, `EXEWEBGUPTA@gmail.com`, is refused with 401. |
| `Store.TrackClick` | exe.py:79-84 | A click raises `totalClicks` and `todayClicks` by one and leaves `conversions` and `revenue` unchanged. |
| `Store.ClicksAccumulate` | exe.py:82-83 | After n clicks, both counters are exactly n higher and nothing else changed. |
| `Store.AddProduct` | exe.py:86-101 | The list grows by one entry at the end and earlier entries are unchanged. The new id is `prod_` followed by `str` of the new length, so its digits never start with `0`, and they parse back to the new length. `isFlash` defaults to `false` and other fields are copied or `Null`. A non-object body fails with 500. |
| `Decimal.NatToDecimal` | exe.py:91 | `str(n)` is a non-empty string of digits. It starts with `0` only for zero. |
| `Decimal.DecimalRoundTrip` | exe.py:91 | Parsing `str(n)` gives back n. |
| `Decimal.DecimalInjective` | exe.py:91 | Distinct numbers have distinct decimal forms. |
| `Store.IdsStayDistinct` | exe.py:91-100 | Starting from the seeded list, no two entries share an id after any run of add-product requests handled one after another. |
| `Text.Trim` | script.py.js:125 | The trimmed query neither starts nor ends with white space. It is empty exactly when the input is all white space. |
| `Text.TrimCharacterization` | script.py.js:125 | `Trim(s)` is the one string that sits in `s` with only white space around it and has no white space at either end. |
| `Text.TrimIgnoresPadding` | script.py.js:125 | Adding white space around a string does not change its trim. |
| `Text.TrimIdempotent` | script.py.js:125 | Trimming twice is the same as trimming once. |
| `Cards.ToNumber` | script.py.js:93 | `null` is 0, `true` is 1, `false` is 0 and a number is itself; such a finite result is zero exactly when JavaScript finds the value false. Strings, arrays and objects give NaN. |
| `Cards.Round` | script.py.js:93 | `Math.round` returns the integer nearest to x, with halves rounded up. |
| `Cards.DiscountOf` | script.py.js:93 | A falsy original price gives discount 0. Two finite prices give the rounded value of `(1 - price/original) * 100`, and the divisor is non-zero. Otherwise the discount is NaN. |
| `Cards.CreateCard` | script.py.js:92-117 | The Flash badge appears exactly when `isFlash` is truthy. The discount badge appears exactly when the discount is positive, and shows it. The original price is struck through exactly when it is truthy. The card shows the current price and link and starts with a fresh wishlist button. |
| `Cards.NoOriginalPriceNoDiscount` | script.py.js:93-109 | A missing or zero original price gives discount 0, no discount badge and no struck price. |
| `Cards.DiscountWithinPercent` | script.py.js:93 | If 0 <= price <= original, including an original price of 0, the discount lies in 0..100. |
| `Cards.NoDiscountWhenNotCheaper` | script.py.js:93-99 | If price >= original > 0, the discount is <= 0 and no discount badge is shown. |
| `Cards.WatchCardExample` | script.py.js:92-110 | A $40 item listed at $100 with `isFlash` shows the Flash badge, -60%, $40 and a struck $100. |
| `Cards.RenderProducts` | script.py.js:74-78 | Rendering gives exactly one card per product, in input order. |
| `Cards.ToggleWishlist` | script.py.js:173-179 | Toggling flips `active`, `far` and `fas`, and toasts "Added!" exactly when the button became active. |
| `Cards.ToggleTwiceRestores` | script.py.js:173-177 | Toggling twice restores the button. A fresh button has a filled heart exactly when it is active, and toggling keeps that true. |
| `View.OpenAdminLogin` | script.py.js:191-203 | Opening the overlay activates it with a fresh login form and changes nothing else. |
| `View.CloseAdmin` | script.py.js:243 | Closing deactivates the overlay and changes nothing else. |
| `View.OpenThenCloseAdmin` | script.py.js:191-243 | Opening and then closing a closed overlay leaves it closed. Only its body was reset. |
| `View.ExecuteSearch` | script.py.js:124-135 | A trimmed query of `112233` opens the overlay and sends nothing. The code test runs before the empty test. A blank query changes nothing. Any other query shows only the results section with a spinner and sends exactly one product request with the trimmed query. The input box is never rewritten. |
| `View.SearchIsIdempotent` | script.py.js:124-135 | Running the same search again leaves the page as the first run left it. It sends the same request again, if there was one. |
| `View.BlankSearchIsNoOp` | script.py.js:125-127 | An input of only white space changes nothing and sends nothing. |
| `View.PaddedAdminCodeOpensOverlay` | script.py.js:125-126 | The admin code with any white space before and after it still opens the overlay and sends nothing. |
| `View.SearchSendsTrimmedQuery` | script.py.js:125-134 | The query sent is never blank and never the admin code. It has no white space at either end and is the trim of the input. |
| `View.SearchIgnoresSurroundingSpace` | script.py.js:125 | White space around the input does not change what is sent. |
| `View.SearchCategory` | script.py.js:147-150 | A category click sets the input to the name and then behaves as `ExecuteSearch`. |
| `View.CategoryTilesSearchTheirName` | script.py.js:39-89 | Clicking any of the four static tiles moves to RESULTS and sends one request for exactly that tile's name. |
| `View.DisplayResults` | script.py.js:137-145 | The count line reports the number of results and the query. No results give the empty state and no grid. Otherwise there is a grid with one card per result, in order. Nothing else changes. |
| `View.NavigateHome` | script.py.js:152-158 | From any page, going home gives HOME visibility and changes nothing else. |
| `View.SearchThenHome` | script.py.js:124-158 | Going home after any search shows the landing sections again and keeps the input. |
| `View.LoadFlashDeals` | script.py.js:23-30 | The flash grid holds one card per deal, in order. The product statistic shows how many deals there are. |
| `View.BuyProduct` | script.py.js:162-166 | Buying sends one click-tracking request, then opens the link, then shows "Redirecting...". |
| `View.BuyAll` | script.py.js:162-166 | A run of purchases issues two effects per purchase and leaves the "Redirecting..." toast, or changes nothing when there were none. |
| `View.BuyAllInOrder` | script.py.js:162-166 | In a run of purchases, each one sends its tracking request and then opens its own link, in purchase order. |
| `View.BuyAllTracksEach` | script.py.js:163 | A run of purchases sends exactly one click-tracking request per purchase. |
| `View.AttemptLogin` | script.py.js:205-214 | The typed e-mail is posted unchanged. |
| `View.OnLoginReply` | script.py.js:215-225 | A truthy `success` shows "Login Successful!", puts a spinner in the overlay and asks for analytics. A failed fetch or a `null` body shows "Server Error". Anything else shows "Login Failed". |
| `View.ShowDashboard` | script.py.js:228-241 | The dashboard shows the total clicks and the revenue it received. |
| `Storefront.LoginRequestsDashboardIffAdmin` | script.py.js:205-226 | Submitting an e-mail asks for the dashboard figures exactly when it is a configured admin address, letter for letter. Otherwise only "Login Failed" appears. |
| `Storefront.FlashGridAllBadged` | script.py.js:23-27 | Every card in the flash-deal grid built from the server's flash deals shows the Flash badge. |
| `Storefront.FlashBadgeWithoutFlashDeal` | script.py.js:98 | A product stored with `isFlash: []` is not a flash deal, yet its card shows the Flash badge. |
| `Storefront.Serve` | exe.py:79-84 | Handling the requests a page sent raises both click counters by the number of click-tracking requests among them and leaves the rest unchanged. |
| `Storefront.BuyCountsOneClick` | script.py.js:162-171 | When the server handles what one purchase sends, its counters change exactly as for one click. |
| `Storefront.PurchasesCountClicks` | script.py.js:162-171 | When the server handles what a run of n purchases sends, its counters change as for n clicks. |
| `Storefront.DashboardAfterPurchases` | script.py.js:228-241 | After a run of n purchases reaches a fresh server, the dashboard shows the seeded click total plus n and the seeded revenue. |
| `Storefront.FashionTileShowsTwoCards` | script.py.js:137-150 | Clicking "Fashion" sends exactly one request, for "Fashion"; on the seeded list the answer shows "2 products" and the handbag and sunglasses cards, in order. |

## Left out

- Network I/O, `async`/`await` ordering, the `catch` branches of `loadFlashDealsFromServer`, `searchServer` and `checkApi`, and console logging: a search or login is modelled as an emitted request, and `OnLoginReply` takes the parsed reply (or its absence) as a parameter.
- `checkApi` and `get_analytics`: a toast of the revenue and a handler that returns the counters verbatim; nothing to state beyond `ShowDashboard`.
- DOM lookups, `innerHTML` strings and the `if (!container) return` guard of `renderProducts`: the model assumes the page's elements exist and records what a container shows, not its markup.
- `renderCategories` markup and `toLocaleString`: only the static category list and its click action are modelled.
- `handleSearchKey` (Enter calls `executeSearch`), `showFlashDeals`, `showCategories`, `window.scrollTo`, `window.open` itself and the timer in `showToast`: key dispatch, scrolling and timers; the toast is kept as the last message shown.
- `createParticles`, `setupScrollEffect`, `setupObserver`, `startCountdown`: cosmetic, and driven by `Math.random`, scroll events and `IntersectionObserver`.
- Flask routing, `jsonify`, CORS, `render_template`, `app.run`, and Flask's content-type handling of `request.json`: the handlers start from an already decoded JSON body.
- The client builds `/products?category=${query}` without URL-encoding (script.py.js:53), so `&`, `#` or `+` in a query reach the server altered; URL parsing is not modelled and the request carries the query as typed.
- Concurrency: Flask's development server handles requests on threads, and both the id computation with the append (exe.py:91-100) and the `+= 1` counter updates (exe.py:82-83) are read-then-write steps. The model serves requests one at a time, so `Store.IdsStayDistinct`, `Store.ClicksAccumulate` and `Storefront.PurchasesCountClicks` say nothing about interleaved requests, which could share an id or lose a click.
- Floating point: numbers are exact rationals, so `revenue` and the discount division are exact.
- The unused `adminCode` entry of `CONFIG` (exe.py:14): the browser hard-codes `112233`.
- Store.GetProducts: compares categories with ASCII-only lowercasing; Python's `str.lower` also lowers non-ASCII letters.
- Cards.ToNumber: a JSON string, array or object coerces to NaN; JavaScript's `/` would coerce `"549"` to 549 and `""` or `[]` to 0. The product fields are numbers in the seeded list, and string-to-number parsing is outside the model.
- Text.Lower: lowers only ASCII letters, one character to one character; Python's `str.lower` also lowers non-ASCII letters and can lengthen a string (`'İ'` becomes two characters). Unicode case tables are outside the model.
- Cards.DiscountOf: a price or original price that is a JSON string, array or object is taken to be NaN; JavaScript's string-to-number coercion (so `"549"` as 549, `[]` as 0) is not modelled.

=== FILE: base.dfy ===
/** Failure-carrying wrappers shared by the server and the browser model. */
module Base {

  /** A value that may be absent (Python `None`, a JavaScript element that does not exist). */
  datatype Option<+T> = None | Some(value: T)

  /** The outcome of a Flask handler: the JSON body it returns, or the HTTP status
      Flask answers with when the handler raises. */
  datatype Result<+T> = Ok(value: T) | Err(status: int)

  /** Status Flask answers with when a handler raises an uncaught exception. */
  const InternalServerError: int := 500
}

=== FILE: cards.dfy ===
/** The browser's product-card renderer, producing an abstract card (which badges and
    prices are shown) instead of an HTML string. */
module Cards {
  import opened Base
  import opened Json
  import opened Catalog

  /** A JavaScript number as far as the discount needs it: finite, or NaN. */
  datatype Number = Finite(x: real) | NaN

  /** The numeric coercion `/` applies to an operand: `null` is 0, booleans are 0 or 1,
      numbers are themselves. Strings, arrays and objects are taken to be NaN. A value that
      coerces to a finite number is zero exactly when JavaScript finds it false. */
  function ToNumber(v: Value): (n: Number)
    ensures n.Finite? <==> v.Null? || v.Bool? || v.Num?
    ensures n.Finite? ==> (n.x == 0.0 <==> !JsTruthy(v))
    ensures v.Null? ==> n == Finite(0.0)
    ensures v.Bool? ==> n == Finite(if v.b then 1.0 else 0.0)
    ensures v.Num? ==> n == Finite(v.x)
  {
    match v
    case Null => Finite(0.0)
    case Bool(b) => Finite(if b then 1.0 else 0.0)
    case Num(x) => Finite(x)
    case _ => NaN
  }

  /** A value JavaScript finds true never coerces to the number 0. */
  lemma TruthyNumberNonZero(v: Value)
    requires JsTruthy(v) && ToNumber(v).Finite?
    ensures ToNumber(v).x != 0.0
  {
  }

  /** `Math.round(x)` for a finite `x`: the nearest integer, halves rounded up. */
  function Round(x: real): (n: int)
    ensures n as real - 0.5 <= x < n as real + 0.5
  {
    (x + 0.5).Floor
  }

  /** The discount a card computes. */
  datatype Discount = Percent(n: int) | NotANumber

  /** The percentage saved, rounded to the nearest integer: the share of the original price
      that the price undercuts it by, times a hundred; zero when the original price is false
      to JavaScript. */
  function DiscountOf(p: Product): (d: Discount)
    ensures !JsTruthy(p.originalPrice) ==> d == Percent(0)
    ensures JsTruthy(p.originalPrice) && ToNumber(p.price).Finite? && ToNumber(p.originalPrice).Finite? ==>
      var a, o := ToNumber(p.price).x, ToNumber(p.originalPrice).x;
      o != 0.0 && d.Percent? && d.n as real - 0.5 <= (1.0 - a / o) * 100.0 < d.n as real + 0.5
    ensures JsTruthy(p.originalPrice) && (ToNumber(p.price).NaN? || ToNumber(p.originalPrice).NaN?) ==>
      d == NotANumber
  {
    if !JsTruthy(p.originalPrice) then Percent(0)
    else match (ToNumber(p.price), ToNumber(p.originalPrice))
      case (Finite(a), Finite(o)) =>
        TruthyNumberNonZero(p.originalPrice);
        Percent(Round((1.0 - a / o) * 100.0))
      case _ => NotANumber
  }

  /** The heart button of a card: whether it has class `active`, and whether its icon has
      class `far` (outlined heart) and `fas` (filled heart). */
  datatype WishlistButton = WishlistButton(active: bool, far: bool, fas: bool)

  /** A freshly rendered button: inactive, outlined heart. */
  const FreshButton: WishlistButton := WishlistButton(false, true, false)

  /** What a rendered product card shows. */
  datatype Card = Card(
    productId: string,
    name: Value,
    image: Value,
    category: Value,
    flashBadge: bool,
    discountBadge: Option<int>,
    price: Value,
    struckPrice: Option<Value>,
    buyLink: Value,
    wishlist: WishlistButton)

  /** `createCard`: the Flash badge when `isFlash` is true to JavaScript, a discount badge
      when the discount is positive, the current price always, the original price struck
      through when it is true to JavaScript, and a fresh wishlist button. */
  function CreateCard(p: Product): (c: Card)
    ensures c.flashBadge <==> JsTruthy(p.isFlash)
    ensures c.discountBadge.Some? <==> DiscountOf(p).Percent? && DiscountOf(p).n > 0
    ensures c.discountBadge.Some? ==> c.discountBadge.value == DiscountOf(p).n
    ensures c.struckPrice == (if JsTruthy(p.originalPrice) then Some(p.originalPrice) else None)
    ensures c.price == p.price && c.productId == p.id && c.buyLink == p.affiliateLink
    ensures c.name == p.name && c.image == p.image && c.category == p.category
    ensures c.wishlist == FreshButton
  {
    var d := DiscountOf(p);
    Card(
      p.id, p.name, p.image, p.category,
      JsTruthy(p.isFlash),
      if d.Percent? && d.n > 0 then Some(d.n) else None,
      p.price,
      if JsTruthy(p.originalPrice) then Some(p.originalPrice) else None,
      p.affiliateLink,
      FreshButton)
  }

  /** Without a usable original price (missing, null, zero, false, empty) the discount
      is 0 and the card shows neither a discount badge nor a struck price. */
  lemma NoOriginalPriceNoDiscount(p: Product)
    requires !JsTruthy(p.originalPrice)
    ensures DiscountOf(p) == Percent(0)
    ensures CreateCard(p).discountBadge == None && CreateCard(p).struckPrice == None
  {
  }

  /** Where `a / o` lies relative to 0 and 1 for a positive `o`. */
  lemma QuotientBounds(a: real, o: real)
    requires o > 0.0
    ensures a >= 0.0 ==> a / o >= 0.0
    ensures a <= o ==> a / o <= 1.0
    ensures a >= o ==> a / o >= 1.0
  {
  }

  /** A price between 0 and the original price gives a discount between 0 and 100. */
  lemma DiscountWithinPercent(p: Product, a: real, o: real)
    requires p.price == Num(a) && p.originalPrice == Num(o)
    requires 0.0 <= a <= o
    ensures DiscountOf(p).Percent? && 0 <= DiscountOf(p).n <= 100
  {
    if o > 0.0 {
      QuotientBounds(a, o);
    }
  }

  /** A price at or above a positive original price gives no positive discount, so
      no discount badge. */
  lemma NoDiscountWhenNotCheaper(p: Product, a: real, o: real)
    requires p.price == Num(a) && p.originalPrice == Num(o)
    requires a >= o > 0.0
    ensures DiscountOf(p).Percent? && DiscountOf(p).n <= 0
    ensures CreateCard(p).discountBadge == None
  {
    QuotientBounds(a, o);
  }

  /** A $40 watch listed at $100 shows the Flash badge, "-60%", "$40" and a struck "$100". */
  lemma WatchCardExample()
    ensures var c := CreateCard(Product("1", Str("Watch"), Num(40.0), Num(100.0), Str("a.jpg"),
                                        Null, Bool(true), Str("http://x")));
      && c.flashBadge
      && c.discountBadge == Some(60)
      && c.price == Num(40.0)
      && c.struckPrice == Some(Num(100.0))
  {
  }

  /** The card markup of a product list: one card per product, in order. */
  function RenderProducts(products: seq<Product>): (cards: seq<Card>)
    ensures |cards| == |products|
    ensures forall i :: 0 <= i < |products| ==> cards[i] == CreateCard(products[i])
  {
    if products == [] then [] else [CreateCard(products[0])] + RenderProducts(products[1..])
  }

  /** `toggleWishlist`: flips `active` and swaps the outlined and filled icon classes,
      and says which way the toast goes. */
  function ToggleWishlist(b: WishlistButton): (r: (WishlistButton, string))
    ensures r.0.active == !b.active && r.0.far == !b.far && r.0.fas == !b.fas
    ensures r.1 == if r.0.active then "Added!" else "Removed"
  {
    var b' := WishlistButton(!b.active, !b.far, !b.fas);
    (b', if b'.active then "Added!" else "Removed")
  }

  /** A button whose heart is filled exactly when it is active. */
  predicate Consistent(b: WishlistButton) {
    b.active == b.fas && b.far == !b.fas
  }

  /** Toggling twice restores the button; toggling keeps a consistent button consistent,
      and a fresh one is consistent, so the heart is filled exactly when the product is
      on the wishlist. */
  lemma ToggleTwiceRestores(b: WishlistButton)
    ensures ToggleWishlist(ToggleWishlist(b).0).0 == b
    ensures Consistent(b) ==> Consistent(ToggleWishlist(b).0)
    ensures Consistent(FreshButton)
  {
  }
}

=== FILE: catalog.dfy ===
/** The records the storefront's server keeps in memory and sends to the browser. */
module Catalog {
  import opened Json

  /** One entry of the product list. Every field except `id` is copied verbatim from
      the JSON an admin posted, so it may hold any JSON value (`Null` when the key was
      missing); the seeded entries hold strings, numbers and booleans. */
  datatype Product = Product(
    id: string,
    name: Value,
    price: Value,
    originalPrice: Value,
    image: Value,
    category: Value,
    isFlash: Value,
    affiliateLink: Value)

  /** The click counters shown on the admin dashboard. */
  datatype Analytics = Analytics(totalClicks: int, todayClicks: int, conversions: int, revenue: real)

  /** The e-mail addresses allowed into the admin dashboard. */
  const AdminEmails: seq<string> := ["exewebgupta@gmail.com", "phdgamer444@gmail.com"]

  function Seed(id: string, name: string, price: real, originalPrice: real, image: string,
                category: string, isFlash: bool, link: string): Product
  {
    Product(id, Str(name), Num(price), Num(originalPrice), Str(image), Str(category), Bool(isFlash), Str(link))
  }

  /** The product list the server starts with. */
  const SeedProducts: seq<Product> := [
    Seed("prod_001", "Luxury Chronograph Watch", 299.0, 549.0,
         "https://images.unsplash.com/photo-1523275335684-37898b6baf30?w=400", "Watches", true,
         "https://earnkaro.com/deals/watch"),
    Seed("prod_002", "Wireless Headphones Pro", 249.0, 399.0,
         "https://images.unsplash.com/photo-1505740420928-5e560c06d30e?w=400", "Electronics", true,
         "https://earnkaro.com/deals/headphones"),
    Seed("prod_003", "Designer Leather Handbag", 449.0, 899.0,
         "https://images.unsplash.com/photo-1584917865442-de89df76afd3?w=400", "Fashion", true,
         "https://earnkaro.com/deals/bag"),
    Seed("prod_004", "Smart Fitness Watch", 179.0, 299.0,
         "https://images.unsplash.com/photo-1546868871-7041f2a55e12?w=400", "Electronics", false,
         "https://earnkaro.com/deals/fitwatch"),
    Seed("prod_005", "Premium Aviator Sunglasses", 149.0, 249.0,
         "https://images.unsplash.com/photo-1572635196237-14b3f281503f?w=400", "Fashion", false,
         "https://earnkaro.com/deals/sunglasses"),
    Seed("prod_006", "Luxury Perfume Set", 99.0, 189.0,
         "https://images.unsplash.com/photo-1541643600914-78b084683601?w=400", "Beauty", true,
         "https://earnkaro.com/deals/perfume")
  ]

  /** The counters the server starts with. */
  const SeedAnalytics: Analytics := Analytics(45678, 234, 892, 12500.0)
}

=== FILE: decimal.dfy ===
/** Python's `str(n)` for natural numbers, and its inverse. */
module Decimal {

  predicate IsDigit(c: char) {
    '0' <= c <= '9'
  }

  predicate AllDigits(s: string) {
    forall i :: 0 <= i < |s| ==> IsDigit(s[i])
  }

  function DigitChar(d: nat): (c: char)
    requires d < 10
    ensures IsDigit(c) && c as int - '0' as int == d
  {
    (d + '0' as int) as char
  }

  /** `str(n)`: the decimal digits of `n`, most significant first, without
      leading zeros (so `"0"` only for zero). */
  function NatToDecimal(n: nat): (s: string)
    ensures |s| >= 1 && AllDigits(s)
    ensures s[0] == '0' <==> n == 0
  {
    if n < 10 then [DigitChar(n)] else NatToDecimal(n / 10) + [DigitChar(n % 10)]
  }

  /** `int(s)` for a string of ASCII digits. The empty string reads as 0, where Python's
      `int("")` raises; that case is reached only as the base of the recursion. */
  function ParseDecimal(s: string): nat
    requires AllDigits(s)
  {
    if |s| == 0 then 0
    else ParseDecimal(s[..|s| - 1]) * 10 + (s[|s| - 1] as int - '0' as int)
  }

  /** `int(str(n)) == n`. */
  lemma {:induction false} DecimalRoundTrip(n: nat)
    ensures ParseDecimal(NatToDecimal(n)) == n
  {
    var s := NatToDecimal(n);
    if n >= 10 {
      DecimalRoundTrip(n / 10);
      assert s[..|s| - 1] == NatToDecimal(n / 10);
    }
  }

  /** Distinct numbers have distinct decimal forms. */
  lemma DecimalInjective(m: nat, n: nat)
    requires NatToDecimal(m) == NatToDecimal(n)
    ensures m == n
  {
    DecimalRoundTrip(m);
    DecimalRoundTrip(n);
  }
}

=== FILE: json.dfy ===
/** Decoded JSON values as both tiers see them, with each language's notion of truth. */
module Json {

  /** A decoded JSON value. Numbers are exact rationals: floating point is not modelled. */
  datatype Value =
    | Null
    | Bool(b: bool)
    | Num(x: real)
    | Str(s: string)
    | Arr(elems: seq<Value>)
    | Obj(fields: map<string, Value>)

  /** Python's `bool(v)` of the decoded value: `None`, `False`, `0`, `""`, `[]` and `{}` are false. */
  predicate PyTruthy(v: Value) {
    match v
    case Null => false
    case Bool(b) => b
    case Num(x) => x != 0.0
    case Str(s) => |s| > 0
    case Arr(e) => |e| > 0
    case Obj(m) => |m| > 0
  }

  /** JavaScript's ToBoolean of the parsed value: every array and object is true, even an empty one. */
  predicate JsTruthy(v: Value) {
    match v
    case Null => false
    case Bool(b) => b
    case Num(x) => x != 0.0
    case Str(s) => |s| > 0
    case Arr(_) => true
    case Obj(_) => true
  }

  /** `d.get(key, default)` on a decoded JSON object. */
  function Get(d: map<string, Value>, key: string, default: Value): (v: Value)
    ensures key in d ==> v == d[key]
    ensures key !in d ==> v == default
  {
    if key in d then d[key] else default
  }

  /** Whatever Python finds true, JavaScript finds true as well ... */
  lemma PyTruthyImpliesJsTruthy(v: Value)
    ensures PyTruthy(v) ==> JsTruthy(v)
  {
  }

  /** ... and the two disagree on exactly the empty array and the empty object. */
  lemma TruthinessDisagreement(v: Value)
    ensures JsTruthy(v) && !PyTruthy(v) <==> v == Arr([]) || v == Obj(map[])
  {
    if v.Obj? && |v.fields| == 0 {
      assert |v.fields.Keys| == 0;
    }
  }
}

=== FILE: seqs.dfy ===
/** Order-preserving selection from a sequence, the shape of a Python list comprehension
    with an `if` clause. */
module Seqs {

  /** `xs` can be obtained from `ys` by deleting elements, keeping the order of the rest. */
  ghost predicate IsSubsequence<T>(xs: seq<T>, ys: seq<T>)
    decreases |ys|
  {
    if xs == [] then true
    else if ys == [] then false
    else (xs[0] == ys[0] && IsSubsequence(xs[1..], ys[1..])) || IsSubsequence(xs, ys[1..])
  }

  /** A filtering list comprehension: exactly the kept elements, in their original
      order; that each occurs as often as in `xs` is `FilterMultiplicity`. */
  function Filter<T(==)>(keep: T -> bool, xs: seq<T>): (r: seq<T>)
    ensures IsSubsequence(r, xs)
    ensures forall i :: 0 <= i < |r| ==> keep(r[i])
    ensures forall i :: 0 <= i < |xs| && keep(xs[i]) ==> xs[i] in r
  {
    if xs == [] then []
    else
      var rest := Filter(keep, xs[1..]);
      if keep(xs[0]) then [xs[0]] + rest else rest
  }

  /** A kept value occurs in the result exactly as often as in `xs`; a dropped one not at all. */
  lemma {:induction false} FilterMultiplicity<T>(keep: T -> bool, xs: seq<T>, x: T)
    ensures multiset(Filter(keep, xs))[x] == if keep(x) then multiset(xs)[x] else 0
    decreases |xs|
  {
    if xs != [] {
      FilterMultiplicity(keep, xs[1..], x);
      assert xs == [xs[0]] + xs[1..];
    }
  }

  /** Filtering with two tests that agree on the elements gives the same result. */
  lemma {:induction false} FilterCongruent<T>(keep1: T -> bool, keep2: T -> bool, xs: seq<T>)
    requires forall i :: 0 <= i < |xs| ==> keep1(xs[i]) == keep2(xs[i])
    ensures Filter(keep1, xs) == Filter(keep2, xs)
    decreases |xs|
  {
    if xs != [] {
      FilterCongruent(keep1, keep2, xs[1..]);
    }
  }

  /** Every element of a subsequence is an element of the whole. */
  lemma {:induction false} SubsequenceMembers<T>(xs: seq<T>, ys: seq<T>)
    requires IsSubsequence(xs, ys)
    ensures forall x :: x in xs ==> x in ys
    decreases |ys|
  {
    if xs != [] {
      if xs[0] == ys[0] && IsSubsequence(xs[1..], ys[1..]) {
        SubsequenceMembers(xs[1..], ys[1..]);
        assert xs == [xs[0]] + xs[1..];
      } else {
        SubsequenceMembers(xs, ys[1..]);
      }
    }
  }

}

=== FILE: store.dfy ===
/** The request handlers of the storefront's Flask server, as pure functions over its
    in-memory product list and click counters. */
module Store {
  import opened Base
  import opened Json
  import opened Text
  import opened Decimal
  import opened Seqs
  import opened Catalog

  // ---------------------------------------------------------------------------
  // GET /api/products?category=...
  // ---------------------------------------------------------------------------

  /** The category filter applies: the query parameter is present and not empty. */
  predicate Given(category: Option<string>) {
    category.Some? && category.value != ""
  }

  /** A product is kept by the category filter: its category equals the query once both
      are lowercased. Only defined in effect for a product whose category is a string. */
  predicate InCategory(query: string, p: Product) {
    p.category.Str? && Lower(p.category.s) == Lower(query)
  }

  /** Some stored category is not a string, so `.lower()` raises on it. */
  predicate HasNonStringCategory(products: seq<Product>) {
    exists i :: 0 <= i < |products| && !products[i].category.Str?
  }

  /** Without a category the whole list; with one, the products of that category,
      compared case-insensitively, in list order. The comprehension calls `.lower()` on
      every stored category, so a single non-string category makes the handler raise. */
  function GetProducts(products: seq<Product>, category: Option<string>): (r: Result<seq<Product>>)
    ensures !Given(category) ==> r == Ok(products)
    ensures Given(category) ==> (r.Err? <==> HasNonStringCategory(products))
    ensures r.Err? ==> r.status == InternalServerError
    ensures Given(category) && r.Ok? ==> IsSubsequence(r.value, products)
    ensures Given(category) && r.Ok? ==>
      forall i :: 0 <= i < |r.value| ==> InCategory(category.value, r.value[i])
    ensures Given(category) && r.Ok? ==>
      forall i :: 0 <= i < |products| && InCategory(category.value, products[i]) ==> products[i] in r.value
    ensures Given(category) && r.Ok? ==>
      forall p :: multiset(r.value)[p] == if InCategory(category.value, p) then multiset(products)[p] else 0
  {
    if !Given(category) then Ok(products)
    else if HasNonStringCategory(products) then Err(InternalServerError)
    else
      var query := category.value;
      var keep := p => InCategory(query, p);
      assert forall p :: multiset(Filter(keep, products))[p] == if keep(p) then multiset(products)[p] else 0 by {
        forall p { FilterMultiplicity(keep, products, p); }
      }
      Ok(Filter(keep, products))
  }

  /** Which seeded products the test `InCategory("Fashion", _)` keeps. */
  lemma SeedFashionMatches()
    ensures forall i :: 0 <= i < |SeedProducts| ==> (InCategory("Fashion", SeedProducts[i]) <==> i == 2 || i == 4)
  {
    var f := Lower("Fashion");
    assert Lower("Beauty")[0] != f[0] && Lower("Electronics")[0] != f[0] && Lower("Watches")[0] != f[0];
  }

  /** With the seeded list, "Fashion" finds the handbag and the sunglasses, in that order. */
  lemma SeedFashionQuery()
    ensures GetProducts(SeedProducts, Some("Fashion")) == Ok([SeedProducts[2], SeedProducts[4]])
  {
    var db := SeedProducts;
    assert forall i :: 0 <= i < |db| ==> db[i].category.Str?;
    SeedFashionFilter(p => InCategory("Fashion", p));
  }

  lemma SeedFashionFilter(keep: Product -> bool)
    requires forall p :: keep(p) == InCategory("Fashion", p)
    ensures Filter(keep, SeedProducts) == [SeedProducts[2], SeedProducts[4]]
  {
    var db := SeedProducts;
    SeedFashionMatches();
    assert Filter(keep, db[5..]) == [];
    assert Filter(keep, db[4..]) == [db[4]];
    assert Filter(keep, db[3..]) == [db[4]];
    assert Filter(keep, db[2..]) == [db[2], db[4]];
    assert Filter(keep, db[1..]) == [db[2], db[4]];
  }

  /** The filter does not care how the query is capitalised. */
  lemma CategoryCaseInsensitive(products: seq<Product>, q1: string, q2: string)
    requires Lower(q1) == Lower(q2)
    ensures GetProducts(products, Some(q1)) == GetProducts(products, Some(q2))
  {
    FilterCongruent(p => InCategory(q1, p), p => InCategory(q2, p), products);
  }

  /** Lowercasing a query before sending it changes nothing about the answer. */
  lemma LowercasedQuerySameAnswer(products: seq<Product>, q: string)
    ensures GetProducts(products, Some(Lower(q))) == GetProducts(products, Some(q))
  {
    LowerIdempotent(q);
    CategoryCaseInsensitive(products, Lower(q), q);
  }

  // ---------------------------------------------------------------------------
  // GET /api/flash_deals
  // ---------------------------------------------------------------------------

  /** A product counts as a flash deal when its flag is true under Python's notion of truth. */
  predicate IsFlashDeal(p: Product) {
    PyTruthy(p.isFlash)
  }

  /** Exactly the products whose `isFlash` is true to Python, in list order. */
  function FlashDeals(products: seq<Product>): (r: seq<Product>)
    ensures IsSubsequence(r, products)
    ensures forall i :: 0 <= i < |r| ==> PyTruthy(r[i].isFlash)
    ensures forall i :: 0 <= i < |products| && PyTruthy(products[i].isFlash) ==> products[i] in r
    ensures forall p :: multiset(r)[p] == if PyTruthy(p.isFlash) then multiset(products)[p] else 0
  {
    assert forall p :: multiset(Filter(IsFlashDeal, products))[p] == if IsFlashDeal(p) then multiset(products)[p] else 0 by {
      forall p { FilterMultiplicity(IsFlashDeal, products, p); }
    }
    Filter(IsFlashDeal, products)
  }

  /** Every flash deal is also listed by the unfiltered product query. */
  lemma FlashDealsAreListed(products: seq<Product>)
    ensures GetProducts(products, None).Ok?
    ensures forall p :: p in FlashDeals(products) ==> p in GetProducts(products, None).value
  {
    SubsequenceMembers(FlashDeals(products), products);
  }

  // ---------------------------------------------------------------------------
  // POST /api/admin_login
  // ---------------------------------------------------------------------------

  /** The JSON reply of the login handler and the HTTP status it is sent with. */
  datatype LoginReply = LoginReply(success: bool, message: string, status: int)

  /** Membership in the admin list compares by equality, so only a string spelled exactly
      like a listed address matches. */
  predicate IsAdminEmail(email: Value) {
    email.Str? && email.s in AdminEmails
  }

  /** Success, with status 200, exactly when the posted `email` is a listed admin
      address; otherwise failure with status 401. A body that is not a JSON object
      has no `.get`, so the handler raises. */
  function AdminLogin(body: Value): (r: Result<LoginReply>)
    ensures !body.Obj? ==> r == Err(InternalServerError)
    ensures body.Obj? ==> r.Ok? && (r.value.success <==> IsAdminEmail(Get(body.fields, "email", Null)))
    ensures r.Ok? && r.value.success ==> r.value.status == 200
    ensures r.Ok? && !r.value.success ==> r.value.status == 401
  {
    if !body.Obj? then Err(InternalServerError)
    else if IsAdminEmail(Get(body.fields, "email", Null)) then Ok(LoginReply(true, "Access Granted", 200))
    else Ok(LoginReply(false, "Unauthorized email", 401))
  }

  /** A posted address gets in exactly when it is one of the two configured ones,
      letter for letter. */
  lemma AdminLoginAcceptsExactly(email: string)
    ensures AdminLogin(Obj(map["email" := Str(email)])).Ok?
    ensures AdminLogin(Obj(map["email" := Str(email)])).value.success
            <==> email == "exewebgupta@gmail.com" || email == "phdgamer444@gmail.com"
  {
  }

  /** The comparison is case-sensitive: an upper-cased admin address is refused. */
  lemma AdminLoginCaseSensitive()
    ensures AdminLogin(Obj(map["email" := Str("EXEWEBGUPTA@gmail.com")]))
            == Ok(LoginReply(false, "Unauthorized email", 401))
  {
  }

  // ---------------------------------------------------------------------------
  // POST /api/track_click
  // ---------------------------------------------------------------------------

  /** One affiliate click: both click counters go up by one, nothing else moves. */
  function TrackClick(a: Analytics): (r: Analytics)
    ensures r.totalClicks == a.totalClicks + 1
    ensures r.todayClicks == a.todayClicks + 1
    ensures r.conversions == a.conversions && r.revenue == a.revenue
  {
    a.(totalClicks := a.totalClicks + 1, todayClicks := a.todayClicks + 1)
  }

  /** `n` clicks in a row. */
  function TrackClicks(a: Analytics, n: nat): Analytics {
    if n == 0 then a else TrackClick(TrackClicks(a, n - 1))
  }

  /** After `n` clicks both counters are exactly `n` higher and the rest is unchanged. */
  lemma {:induction false} ClicksAccumulate(a: Analytics, n: nat)
    ensures TrackClicks(a, n) == a.(totalClicks := a.totalClicks + n, todayClicks := a.todayClicks + n)
  {
    if n > 0 {
      ClicksAccumulate(a, n - 1);
    }
  }

  // ---------------------------------------------------------------------------
  // POST /api/add_product
  // ---------------------------------------------------------------------------

  /** The list after an append, and the entry appended. */
  datatype Added = Added(products: seq<Product>, product: Product)

  const IdPrefix: string := "prod_"

  /** The id given to a new product: the prefix `prod_` and one more than the list's length. */
  function NewId(count: nat): string {
    IdPrefix + NatToDecimal(count + 1)
  }

  /** Appends the posted product under a fresh id. The id is `prod_` followed by the
      decimal form of the new length; `isFlash` defaults to `false` when the key is
      missing; every other field is copied as given, `Null` when missing. */
  function AddProduct(products: seq<Product>, body: Value): (r: Result<Added>)
    ensures !body.Obj? ==> r == Err(InternalServerError)
    ensures body.Obj? ==> r.Ok?
    ensures r.Ok? ==> r.value.products == products + [r.value.product]
    ensures r.Ok? ==>
      var id := r.value.product.id;
      && id == IdPrefix + NatToDecimal(|products| + 1)
      && |id| > |IdPrefix| && id[..|IdPrefix|] == IdPrefix && id[|IdPrefix|] != '0'
      && AllDigits(id[|IdPrefix|..]) && ParseDecimal(id[|IdPrefix|..]) == |products| + 1
    ensures r.Ok? ==>
      var d, p := body.fields, r.value.product;
      && p.name == Get(d, "name", Null)
      && p.price == Get(d, "price", Null)
      && p.originalPrice == Get(d, "originalPrice", Null)
      && p.image == Get(d, "image", Null)
      && p.category == Get(d, "category", Null)
      && p.isFlash == Get(d, "isFlash", Bool(false))
      && p.affiliateLink == Get(d, "affiliateLink", Null)
  {
    if !body.Obj? then Err(InternalServerError)
    else
      var d := body.fields;
      var p := Product(
        NewId(|products|),
        Get(d, "name", Null),
        Get(d, "price", Null),
        Get(d, "originalPrice", Null),
        Get(d, "image", Null),
        Get(d, "category", Null),
        Get(d, "isFlash", Bool(false)),
        Get(d, "affiliateLink", Null));
      DecimalRoundTrip(|products| + 1);
      assert p.id[|IdPrefix|..] == NatToDecimal(|products| + 1);
      Ok(Added(products + [p], p))
  }

  /** A run of add-product requests; one whose body is not an object raises before the
      append and leaves the list as it was. */
  function AddAll(products: seq<Product>, bodies: seq<Value>): seq<Product>
    decreases |bodies|
  {
    if bodies == [] then products
    else
      var next := match AddProduct(products, bodies[0])
                  case Ok(added) => added.products
                  case Err(_) => products;
      AddAll(next, bodies[1..])
  }

  ghost predicate IdsDistinct(products: seq<Product>) {
    forall i, j :: 0 <= i < j < |products| ==> products[i].id != products[j].id
  }

  /** The seeded entries come first; every later entry carries the id generated from
      its position. */
  ghost predicate GrownFromSeed(products: seq<Product>) {
    && |products| >= |SeedProducts|
    && products[..|SeedProducts|] == SeedProducts
    && forall i :: |SeedProducts| <= i < |products| ==> products[i].id == NewId(i)
  }

  lemma {:induction false} AddAllGrowsFromSeed(products: seq<Product>, bodies: seq<Value>)
    requires GrownFromSeed(products)
    ensures GrownFromSeed(AddAll(products, bodies))
    decreases |bodies|
  {
    if bodies != [] {
      var r := AddProduct(products, bodies[0]);
      if r.Ok? {
        assert r.value.product.id == NewId(|products|);
        assert r.value.products[..|SeedProducts|] == products[..|SeedProducts|];
        AddAllGrowsFromSeed(r.value.products, bodies[1..]);
      } else {
        AddAllGrowsFromSeed(products, bodies[1..]);
      }
    }
  }

  lemma GrownFromSeedIdsDistinct(products: seq<Product>)
    requires GrownFromSeed(products)
    ensures IdsDistinct(products)
  {
    var n := |SeedProducts|;
    forall i, j | 0 <= i < j < |products|
      ensures products[i].id != products[j].id
    {
      if j >= n {
        var dj := NatToDecimal(j + 1);
        assert products[j].id[|IdPrefix|] == dj[0];
        if i >= n {
          var di := NatToDecimal(i + 1);
          if products[i].id == products[j].id {
            assert di == products[i].id[|IdPrefix|..];
            assert dj == products[j].id[|IdPrefix|..];
            DecimalInjective(i + 1, j + 1);
          }
        } else {
          assert products[i] == SeedProducts[i];
          assert products[i].id[|IdPrefix|] == '0';
        }
      } else {
        assert products[i] == SeedProducts[i] && products[j] == SeedProducts[j];
      }
    }
  }

  /** However many products an admin adds, no two entries ever share an id: the seeded
      ids are zero-padded, the generated ones never start with a zero and differ from
      each other because the list only grows. */
  lemma IdsStayDistinct(bodies: seq<Value>)
    ensures IdsDistinct(AddAll(SeedProducts, bodies))
  {
    assert GrownFromSeed(SeedProducts);
    AddAllGrowsFromSeed(SeedProducts, bodies);
    GrownFromSeedIdsDistinct(AddAll(SeedProducts, bodies));
  }
}

=== FILE: storefront.dfy ===
/** Properties that hold across the two tiers: what the browser shows for what the
    server sends, and what the server does for what the browser sends. */
module Storefront {
  import opened Base
  import opened Json
  import opened Catalog
  import opened Cards
  import opened Store
  import opened View

  /** The JSON the server sends for a login reply, as the browser parses it; a raised
      handler answers with an HTML error page, which does not parse. */
  function LoginReplyBody(r: Result<LoginReply>): Option<Value> {
    match r
    case Ok(reply) => Some(Obj(map["success" := Bool(reply.success), "message" := Str(reply.message)]))
    case Err(_) => None
  }

  /** Typing an e-mail into the login form and submitting it asks for the dashboard's
      figures exactly when the address is one of the configured admin addresses, letter
      for letter; otherwise only "Login Failed" is shown and the overlay is left as it was. */
  lemma LoginRequestsDashboardIffAdmin(pg: Page, email: string)
    ensures var sent := AttemptLogin(pg, email);
      var reply := AdminLogin(Obj(map["email" := Str(sent.effects[0].request.email)]));
      var after := OnLoginReply(sent.page, LoginReplyBody(reply));
      && (after.effects == [Send(AnalyticsRequest)] <==> email in AdminEmails)
      && (email in AdminEmails ==> after.page.adminBody == DashboardLoading)
      && (email !in AdminEmails ==> after.page == sent.page.(toast := Some("Login Failed")) && after.effects == [])
  {
  }

  /** Every card in the flash-deal grid carries the Flash badge: whatever Python finds
      true, JavaScript finds true as well. */
  lemma FlashGridAllBadged(pg: Page, products: seq<Product>)
    ensures var grid := LoadFlashDeals(pg, FlashDeals(products)).flashGrid.value;
      forall i :: 0 <= i < |grid| ==> grid[i].flashBadge
  {
  }

  /** The converse fails: a product added with `isFlash: []` is no flash deal on the
      server, yet its card shows the Flash badge when it turns up in a search. */
  lemma FlashBadgeWithoutFlashDeal()
    ensures var p := Product("prod_7", Null, Num(1.0), Null, Null, Str("Fashion"), Arr([]), Null);
      FlashDeals([p]) == [] && CreateCard(p).flashBadge
  {
  }

  /** The server's counters after it has handled the requests among `effs`, in order:
      each click-tracking request counts one click, every other request leaves the
      counters alone, and opening a tab never reaches the server. */
  function Serve(a: Analytics, effs: seq<Effect>): (r: Analytics)
    ensures var k := multiset(effs)[Send(TrackClickRequest)];
      r == a.(totalClicks := a.totalClicks + k, todayClicks := a.todayClicks + k)
    decreases |effs|
  {
    if effs == [] then a
    else
      assert effs == [effs[0]] + effs[1..];
      Serve(if effs[0] == Send(TrackClickRequest) then TrackClick(a) else a, effs[1..])
  }

  /** Buying a product makes the server count exactly one click. */
  lemma BuyCountsOneClick(pg: Page, link: Value, a: Analytics)
    ensures Serve(a, BuyProduct(pg, link).effects) == TrackClick(a)
  {
    assert multiset(BuyProduct(pg, link).effects)[Send(TrackClickRequest)] == 1;
  }

  /** However many purchases are made in a row, the server counts one click per purchase. */
  lemma PurchasesCountClicks(pg: Page, links: seq<Value>, a: Analytics)
    ensures Serve(a, BuyAll(pg, links).effects) == TrackClicks(a, |links|)
  {
    BuyAllTracksEach(pg, links);
    var k := |links|;
    assert Serve(a, BuyAll(pg, links).effects) == a.(totalClicks := a.totalClicks + k, todayClicks := a.todayClicks + k);
    ClicksAccumulate(a, |links|);
  }

  /** The dashboard opened after n purchases on a fresh server shows the seeded click
      total plus n and the seeded revenue. */
  lemma DashboardAfterPurchases(pg: Page, shop: Page, links: seq<Value>)
    ensures ShowDashboard(pg, Serve(SeedAnalytics, BuyAll(shop, links).effects)).adminBody
            == Dashboard(45678 + |links|, 12500.0)
  {
    PurchasesCountClicks(shop, links, SeedAnalytics);
    ClicksAccumulate(SeedAnalytics, |links|);
  }

  /** A category tile end to end, with the seeded list: clicking "Fashion" sends
      "Fashion", the server answers with the handbag and the sunglasses, and the page
      reports two products and shows their two cards in that order. */
  lemma FashionTileShowsTwoCards(pg: Page)
    ensures SearchCategory(pg, "Fashion").effects == [Send(ProductsRequest("Fashion"))]
    ensures var answer := GetProducts(SeedProducts, Some("Fashion"));
      && answer == Ok([SeedProducts[2], SeedProducts[4]])
      && var shown := DisplayResults(pg, answer.value, "Fashion");
      && shown.searchCount == Some(Found(2, "Fashion"))
      && shown.resultsPane == ProductGrid([CreateCard(SeedProducts[2]), CreateCard(SeedProducts[4])])
  {
    SearchPlainCategory(pg, "Fashion");
    FashionAnswerShown(pg);
  }

  lemma FashionAnswerShown(pg: Page)
    ensures var answer := GetProducts(SeedProducts, Some("Fashion"));
      && answer == Ok([SeedProducts[2], SeedProducts[4]])
      && var shown := DisplayResults(pg, answer.value, "Fashion");
      && shown.searchCount == Some(Found(2, "Fashion"))
      && shown.resultsPane == ProductGrid([CreateCard(SeedProducts[2]), CreateCard(SeedProducts[4])])
  {
    SeedFashionQuery();
    var found := [SeedProducts[2], SeedProducts[4]];
    TwoResultsTwoCards(pg, found[0], found[1], "Fashion");
    assert DisplayResults(pg, found, "Fashion").searchCount == Some(Found(2, "Fashion"));
  }

  lemma TwoResultsTwoCards(pg: Page, a: Product, b: Product, q: string)
    ensures DisplayResults(pg, [a, b], q).resultsPane == ProductGrid([CreateCard(a), CreateCard(b)])
  {
  }
}

=== FILE: text.dfy ===
/** String operations the two tiers apply to a search term: JavaScript's `trim` and
    Python's `lower`, the latter restricted to ASCII letters. */
module Text {

  /** The code points `String.prototype.trim` removes: ECMAScript WhiteSpace
      (tab, vertical tab, form feed, space, no-break space, the byte order mark
      and the Zs space separators) and LineTerminator (LF, CR, LS, PS). */
  predicate IsJsSpace(c: char) {
    var n := c as int;
    n == 0x09 || n == 0x0A || n == 0x0B || n == 0x0C || n == 0x0D || n == 0x20
    || n == 0xA0 || n == 0x1680 || (0x2000 <= n <= 0x200A)
    || n == 0x2028 || n == 0x2029 || n == 0x202F || n == 0x205F
    || n == 0x3000 || n == 0xFEFF
  }

  /** Every character of `s` is white space; the empty string qualifies. */
  predicate AllJsSpace(s: string) {
    forall k :: 0 <= k < |s| ==> IsJsSpace(s[k])
  }

  /** `s` neither starts nor ends with white space; the empty string qualifies. */
  predicate NoEdgeSpace(s: string) {
    s == [] || (!IsJsSpace(s[0]) && !IsJsSpace(s[|s| - 1]))
  }

  /** Drops the leading white space: what is removed is all white space and
      what remains is empty or starts with something else. */
  function TrimStart(s: string): (r: string)
    ensures |r| <= |s| && r == s[|s| - |r|..]
    ensures forall i :: 0 <= i < |s| - |r| ==> IsJsSpace(s[i])
    ensures r == [] || !IsJsSpace(r[0])
  {
    if |s| > 0 && IsJsSpace(s[0]) then TrimStart(s[1..]) else s
  }

  /** Drops the trailing white space, symmetrically to `TrimStart`. */
  function TrimEnd(s: string): (r: string)
    ensures |r| <= |s| && r == s[..|r|]
    ensures forall i :: |r| <= i < |s| ==> IsJsSpace(s[i])
    ensures r == [] || !IsJsSpace(r[|r| - 1])
  {
    if |s| > 0 && IsJsSpace(s[|s| - 1]) then TrimEnd(s[..|s| - 1]) else s
  }

  /** JavaScript's `trim`: both ends stripped of white space. The result is a piece of
      `s` that neither starts nor ends with white space, and it is empty exactly when `s`
      is all white space; `TrimCharacterization` pins it down completely. */
  function Trim(s: string): (r: string)
    ensures |r| <= |s|
    ensures NoEdgeSpace(r)
    ensures r == [] <==> AllJsSpace(s)
  {
    var t := TrimStart(s);
    assert forall k :: |s| - |t| <= k < |s| ==> s[k] == t[k - (|s| - |t|)];
    TrimEnd(t)
  }

  /** `r` sits at offset `i` of `s` with only white space around it, and does not
      itself start or end with white space. */
  ghost predicate TrimmedAt(r: string, s: string, i: int) {
    && 0 <= i && i + |r| <= |s| && r == s[i..i + |r|]
    && (forall k :: 0 <= k < i ==> IsJsSpace(s[k]))
    && (forall k :: i + |r| <= k < |s| ==> IsJsSpace(s[k]))
    && NoEdgeSpace(r)
  }

  /** What `trim` means: `r` is `s` with its surrounding white space removed. */
  ghost predicate IsTrimOf(r: string, s: string) {
    exists i :: TrimmedAt(r, s, i)
  }

  /** `Trim` meets that meaning of `trim`. */
  lemma TrimSound(s: string)
    ensures IsTrimOf(Trim(s), s)
  {
    var t := TrimStart(s);
    var r := TrimEnd(t);
    var i := |s| - |t|;
    assert t == s[i..];
    assert r == t[..|r|];
    assert r == s[i..i + |r|];
    forall k | i + |r| <= k < |s|
      ensures IsJsSpace(s[k])
    {
      assert s[k] == t[k - i];
    }
    assert r == [] || r[0] == t[0];
    assert TrimmedAt(r, s, i);
  }

  /** Two strings that both are trims of `s` in that sense are equal. */
  lemma TrimmedUnique(r1: string, i1: int, r2: string, i2: int, s: string)
    requires TrimmedAt(r1, s, i1) && TrimmedAt(r2, s, i2)
    ensures r1 == r2
  {
  }

  /** `Trim(s)` is the one and only trim of `s` in that sense. */
  lemma TrimCharacterization(r: string, s: string)
    ensures Trim(s) == r <==> IsTrimOf(r, s)
  {
    TrimSound(s);
    var t :| TrimmedAt(Trim(s), s, t);
    if IsTrimOf(r, s) {
      var i :| TrimmedAt(r, s, i);
      TrimmedUnique(r, i, Trim(s), t, s);
    }
  }

  /** A string with no white space at either end is its own trim. */
  lemma TrimFixesTrimmed(s: string)
    requires NoEdgeSpace(s)
    ensures Trim(s) == s
  {
  }

  /** A string made only of white space trims to the empty string. */
  lemma TrimBlank(s: string)
    requires AllJsSpace(s)
    ensures Trim(s) == []
  {
  }

  /** Trimming twice is trimming once. */
  lemma TrimIdempotent(s: string)
    ensures Trim(Trim(s)) == Trim(s)
  {
    TrimFixesTrimmed(Trim(s));
  }

  /** A trimmed occurrence stays one when white space is added on both sides. */
  lemma TrimmedAtPadded(t: string, q: string, i: int, lead: string, trail: string)
    requires TrimmedAt(t, q, i)
    requires AllJsSpace(lead) && AllJsSpace(trail)
    ensures TrimmedAt(t, lead + q + trail, |lead| + i)
  {
  }

  /** White space added around a string does not change its trim. */
  lemma TrimIgnoresPadding(lead: string, q: string, trail: string)
    requires AllJsSpace(lead) && AllJsSpace(trail)
    ensures Trim(lead + q + trail) == Trim(q)
  {
    TrimSound(q);
    var i :| TrimmedAt(Trim(q), q, i);
    TrimmedAtPadded(Trim(q), q, i, lead, trail);
    TrimCharacterization(Trim(q), lead + q + trail);
  }

  /** Python's `str.lower` on one character, for ASCII letters only. */
  function LowerChar(c: char): (d: char)
    ensures 'A' <= c <= 'Z' ==> 'a' <= d <= 'z' && d as int - c as int == 'a' as int - 'A' as int
    ensures !('A' <= c <= 'Z') ==> d == c
  {
    if 'A' <= c <= 'Z' then (c as int - 'A' as int + 'a' as int) as char else c
  }

  /** `s.lower()`: same length, each character lowered. */
  function Lower(s: string): (r: string)
    ensures |r| == |s|
    ensures forall i :: 0 <= i < |s| ==> r[i] == LowerChar(s[i])
  {
    seq(|s|, i requires 0 <= i < |s| => LowerChar(s[i]))
  }

  /** Lowering an already lowered string changes nothing. */
  lemma LowerIdempotent(s: string)
    ensures Lower(Lower(s)) == Lower(s)
  {
  }
}

=== FILE: view.dfy ===
/** The browser's page controller: which sections are shown, the admin overlay, the
    search results pane, and the requests each user action sends. The page is an
    explicit record; each handler is a function from the page before to the page after. */
module View {
  import opened Base
  import opened Json
  import opened Text
  import opened Catalog
  import opened Cards

  /** Whether the hero, flash-deal, category and search-result sections are displayed. */
  datatype Sections = Sections(hero: bool, flash: bool, categories: bool, results: bool)

  /** HOME: the landing sections shown, the results hidden. */
  const HomeSections: Sections := Sections(true, true, true, false)

  /** RESULTS: only the search results shown. */
  const ResultsSections: Sections := Sections(false, false, false, true)

  /** Contents of the admin overlay's body. `AdminMarkup` is whatever the page shipped with. */
  datatype AdminBody = AdminMarkup | LoginForm | DashboardLoading | Dashboard(totalClicks: int, revenue: real)

  /** Contents of the search results container. `ResultsMarkup` is whatever the page shipped with. */
  datatype ResultsPane = ResultsMarkup | Spinner | EmptyState | ProductGrid(cards: seq<Card>)

  /** The "Found N products for "q"" line. */
  datatype SearchCount = Found(count: nat, query: string)

  datatype Page = Page(
    sections: Sections,
    searchInput: string,
    overlayActive: bool,
    adminBody: AdminBody,
    resultsPane: ResultsPane,
    searchCount: Option<SearchCount>,
    flashGrid: Option<seq<Card>>,
    productStat: Option<nat>,
    toast: Option<string>)

  /** A call to the server's API, by endpoint. */
  datatype Request =
    | FlashDealsRequest
    | ProductsRequest(category: string)
    | TrackClickRequest
    | AdminLoginRequest(email: string)
    | AnalyticsRequest

  /** What a handler asks of the outside world: a request to send, or a tab to open. */
  datatype Effect = Send(request: Request) | OpenTab(link: Value)

  /** A page after a user action, and the effects the action issued, in order. */
  datatype Step = Step(page: Page, effects: seq<Effect>)

  /** The search term that opens the admin overlay instead of searching. */
  const AdminCode: string := "112233"

  // ---------------------------------------------------------------------------
  // Admin overlay
  // ---------------------------------------------------------------------------

  /** `openAdminLogin`: the overlay shows a fresh login form; nothing else changes. */
  function OpenAdminLogin(pg: Page): (r: Page)
    ensures r.overlayActive && r.adminBody == LoginForm
    ensures r.(overlayActive := pg.overlayActive, adminBody := pg.adminBody) == pg
  {
    pg.(overlayActive := true, adminBody := LoginForm)
  }

  /** `closeAdmin` (also run on Escape and on a click on the overlay's backdrop): the
      overlay is hidden and its body left as it is. */
  function CloseAdmin(pg: Page): (r: Page)
    ensures !r.overlayActive
    ensures r.(overlayActive := pg.overlayActive) == pg
  {
    pg.(overlayActive := false)
  }

  /** Opening and then closing the overlay restores a closed overlay; only the body has
      been reset to the login form. */
  lemma OpenThenCloseAdmin(pg: Page)
    requires !pg.overlayActive
    ensures CloseAdmin(OpenAdminLogin(pg)) == pg.(adminBody := LoginForm)
  {
  }

  // ---------------------------------------------------------------------------
  // Search
  // ---------------------------------------------------------------------------

  /** `executeSearch`: the trimmed input is the query. The admin code opens the overlay
      and sends nothing; this test comes before the empty test. A blank query does
      nothing. Any other query hides the landing sections, shows the results section
      with a spinner, and sends exactly one product request with the trimmed query.
      The input box itself is never rewritten. */
  function ExecuteSearch(pg: Page): (r: Step)
    ensures r.page.searchInput == pg.searchInput
    ensures |r.effects| <= 1
    ensures r.effects != [] <==> Trim(pg.searchInput) != AdminCode && Trim(pg.searchInput) != ""
    ensures r.effects != [] ==> r.effects[0] == Send(ProductsRequest(Trim(pg.searchInput)))
    ensures r.effects != [] ==> r.page == pg.(sections := ResultsSections, resultsPane := Spinner)
    ensures Trim(pg.searchInput) == AdminCode ==> r.page == OpenAdminLogin(pg)
    ensures Trim(pg.searchInput) == "" ==> r.page == pg
  {
    var query := Trim(pg.searchInput);
    if query == AdminCode then Step(OpenAdminLogin(pg), [])
    else if query == "" then Step(pg, [])
    else Step(pg.(sections := ResultsSections, resultsPane := Spinner), [Send(ProductsRequest(query))])
  }

  /** Searching again changes nothing more: the page stays as the first search left it
      and the same request, if any, is sent again. */
  lemma SearchIsIdempotent(pg: Page)
    ensures ExecuteSearch(ExecuteSearch(pg).page) == ExecuteSearch(pg)
  {
  }

  /** An input of nothing but white space changes nothing and sends nothing. */
  lemma BlankSearchIsNoOp(pg: Page)
    requires AllJsSpace(pg.searchInput)
    ensures ExecuteSearch(pg) == Step(pg, [])
  {
    TrimBlank(pg.searchInput);
  }

  /** The admin code still opens the overlay, and sends nothing, when typed with any
      white space around it. */
  lemma PaddedAdminCodeOpensOverlay(pg: Page, lead: string, trail: string)
    requires AllJsSpace(lead) && AllJsSpace(trail)
    ensures ExecuteSearch(pg.(searchInput := lead + AdminCode + trail))
            == Step(OpenAdminLogin(pg.(searchInput := lead + AdminCode + trail)), [])
  {
    TrimIgnoresPadding(lead, AdminCode, trail);
    AdminCodeIsTrimmed();
  }

  lemma AdminCodeIsTrimmed()
    ensures Trim(AdminCode) == AdminCode
  {
    TrimFixesTrimmed(AdminCode);
  }

  /** The query sent is never blank, never the admin code, and never has white space at
      either end; it is what is left of the input once surrounding white space is cut. */
  lemma SearchSendsTrimmedQuery(pg: Page)
    requires ExecuteSearch(pg).effects != []
    ensures var q := ExecuteSearch(pg).effects[0].request.category;
      && q != "" && q != AdminCode
      && NoEdgeSpace(q)
      && IsTrimOf(q, pg.searchInput)
  {
    TrimSound(pg.searchInput);
  }

  /** White space around a query does not change what is searched for. */
  lemma SearchIgnoresSurroundingSpace(pg: Page, lead: string, q: string, trail: string)
    requires AllJsSpace(lead) && AllJsSpace(trail)
    ensures ExecuteSearch(pg.(searchInput := lead + q + trail)).effects
            == ExecuteSearch(pg.(searchInput := q)).effects
  {
    TrimIgnoresPadding(lead, q, trail);
  }

  /** `searchCategory(cat)`: put the name in the search box, then search. */
  function SearchCategory(pg: Page, cat: string): (r: Step)
    ensures r.page.searchInput == cat
    ensures r == ExecuteSearch(pg.(searchInput := cat))
  {
    ExecuteSearch(pg.(searchInput := cat))
  }

  /** A category tile of the landing page. */
  datatype Category = Category(name: string, icon: string, count: nat)

  /** The four tiles the page renders; they are not fetched from the server. */
  const Categories: seq<Category> := [
    Category("Electronics", "fa-laptop", 12500),
    Category("Fashion", "fa-tshirt", 8900),
    Category("Watches", "fa-clock", 3200),
    Category("Beauty", "fa-spa", 6700)
  ]

  /** A query that survives `trim` unchanged and is neither blank nor the admin code. */
  predicate PlainQuery(c: string) {
    c != "" && NoEdgeSpace(c) && c != AdminCode
  }

  /** A plain name moves the page to RESULTS and is sent exactly as it is. */
  lemma SearchPlainCategory(pg: Page, c: string)
    requires PlainQuery(c)
    ensures SearchCategory(pg, c) ==
      Step(pg.(searchInput := c, sections := ResultsSections, resultsPane := Spinner),
           [Send(ProductsRequest(c))])
  {
    TrimFixesTrimmed(c);
  }

  /** Every tile's name is plain: it starts and ends with a letter. */
  lemma CategoryNamesArePlain()
    ensures forall i :: 0 <= i < |Categories| ==> PlainQuery(Categories[i].name)
  {
  }

  /** Clicking any tile moves to RESULTS and sends one product request for exactly that
      tile's name. */
  lemma CategoryTilesSearchTheirName(pg: Page, i: int)
    requires 0 <= i < |Categories|
    ensures var c := Categories[i].name;
      SearchCategory(pg, c) ==
        Step(pg.(searchInput := c, sections := ResultsSections, resultsPane := Spinner),
             [Send(ProductsRequest(c))])
  {
    CategoryNamesArePlain();
    SearchPlainCategory(pg, Categories[i].name);
  }

  /** `displayResults`: the count line reports how many products came back and for which
      query; no results give the empty-state message, otherwise a grid with one card per
      result in order. The visible sections are left alone. */
  function DisplayResults(pg: Page, results: seq<Product>, query: string): (r: Page)
    ensures r.searchCount == Some(Found(|results|, query))
    ensures r.resultsPane == EmptyState <==> |results| == 0
    ensures |results| > 0 ==> r.resultsPane.ProductGrid? && |r.resultsPane.cards| == |results|
    ensures |results| > 0 ==> forall i :: 0 <= i < |results| ==> r.resultsPane.cards[i] == CreateCard(results[i])
    ensures r.(searchCount := pg.searchCount, resultsPane := pg.resultsPane) == pg
  {
    var shown := if |results| == 0 then EmptyState else ProductGrid(RenderProducts(results));
    pg.(searchCount := Some(Found(|results|, query)), resultsPane := shown)
  }

  /** `navigateHome`: HOME visibility from any page; nothing else changes. */
  function NavigateHome(pg: Page): (r: Page)
    ensures r.sections == HomeSections
    ensures r.(sections := pg.sections) == pg
  {
    pg.(sections := HomeSections)
  }

  /** Searching and coming back home shows the landing sections again, whatever was
      searched; the results pane keeps its last contents. */
  lemma SearchThenHome(pg: Page)
    ensures NavigateHome(ExecuteSearch(pg).page).sections == HomeSections
    ensures NavigateHome(ExecuteSearch(pg).page).searchInput == pg.searchInput
  {
  }

  // ---------------------------------------------------------------------------
  // Loading, buying, logging in
  // ---------------------------------------------------------------------------

  /** A successful `loadFlashDealsFromServer`: the flash grid holds one card per deal and
      the product statistic shows how many there are. */
  function LoadFlashDeals(pg: Page, deals: seq<Product>): (r: Page)
    ensures r.flashGrid.Some? && |r.flashGrid.value| == |deals| && r.productStat == Some(|deals|)
    ensures forall i :: 0 <= i < |deals| ==> r.flashGrid.value[i] == CreateCard(deals[i])
    ensures r.(flashGrid := pg.flashGrid, productStat := pg.productStat) == pg
  {
    pg.(flashGrid := Some(RenderProducts(deals)), productStat := Some(|deals|))
  }

  /** `buyProduct`: one click-tracking request, then the affiliate link in a new tab,
      then the "Redirecting..." toast. */
  function BuyProduct(pg: Page, link: Value): (r: Step)
    ensures r.effects == [Send(TrackClickRequest), OpenTab(link)]
    ensures r.page == pg.(toast := Some("Redirecting..."))
  {
    Step(pg.(toast := Some("Redirecting...")), [Send(TrackClickRequest), OpenTab(link)])
  }

  /** Buying the products behind `links` one after another: two effects per purchase,
      and the page keeps only the last purchase's toast. */
  function BuyAll(pg: Page, links: seq<Value>): (r: Step)
    ensures |r.effects| == 2 * |links|
    ensures r.page == if links == [] then pg else pg.(toast := Some("Redirecting..."))
    decreases |links|
  {
    if links == [] then Step(pg, [])
    else
      var first := BuyProduct(pg, links[0]);
      var rest := BuyAll(first.page, links[1..]);
      Step(rest.page, first.effects + rest.effects)
  }

  /** In a run of purchases, each one sends its click-tracking request and then opens its
      own tab, in the order of the purchases. */
  lemma {:induction false} BuyAllInOrder(pg: Page, links: seq<Value>)
    ensures var effs := BuyAll(pg, links).effects;
      forall i :: 0 <= i < |links| ==>
        effs[2 * i] == Send(TrackClickRequest) && effs[2 * i + 1] == OpenTab(links[i])
    decreases |links|
  {
    if links != [] {
      var first := BuyProduct(pg, links[0]);
      var rest := BuyAll(first.page, links[1..]).effects;
      BuyAllInOrder(first.page, links[1..]);
      var effs := BuyAll(pg, links).effects;
      assert effs == first.effects + rest;
      forall i | 1 <= i < |links|
        ensures effs[2 * i] == Send(TrackClickRequest) && effs[2 * i + 1] == OpenTab(links[i])
      {
        var j := i - 1;
        assert effs[2 * i] == rest[2 * j] && effs[2 * i + 1] == rest[2 * j + 1];
        assert links[i] == links[1..][j];
      }
    }
  }

  /** A run of purchases sends exactly one click-tracking request per purchase. */
  lemma {:induction false} BuyAllTracksEach(pg: Page, links: seq<Value>)
    ensures multiset(BuyAll(pg, links).effects)[Send(TrackClickRequest)] == |links|
    decreases |links|
  {
    if links != [] {
      var first := BuyProduct(pg, links[0]);
      BuyAllTracksEach(first.page, links[1..]);
      assert BuyAll(pg, links).effects == first.effects + BuyAll(first.page, links[1..]).effects;
    }
  }

  /** `attemptLogin` up to its request: the typed e-mail is posted unchanged. */
  function AttemptLogin(pg: Page, email: string): (r: Step)
    ensures r.effects == [Send(AdminLoginRequest(email))]
    ensures r.page == pg.(toast := Some("Verifying with Python Server..."))
  {
    Step(pg.(toast := Some("Verifying with Python Server...")), [Send(AdminLoginRequest(email))])
  }

  /** `data.success` on the parsed reply: `undefined`, so false, when the reply is not an
      object or lacks the field. */
  predicate ReplySaysSuccess(data: Value) {
    data.Obj? && JsTruthy(Get(data.fields, "success", Null))
  }

  /** The rest of `attemptLogin`. `reply` is the parsed body, `None` when fetching or
      parsing failed. A truthy `success` shows "Login Successful!", puts a spinner in the
      overlay and asks for the analytics; a parsed `null` throws on `.success` and lands
      in the same catch as a network failure ("Server Error"); anything else is
      "Login Failed". */
  function OnLoginReply(pg: Page, reply: Option<Value>): (r: Step)
    ensures reply.Some? && ReplySaysSuccess(reply.value) ==>
      r == Step(pg.(toast := Some("Login Successful!"), adminBody := DashboardLoading), [Send(AnalyticsRequest)])
    ensures (reply.None? || reply.value == Null) ==> r == Step(pg.(toast := Some("Server Error")), [])
    ensures reply.Some? && reply.value != Null && !ReplySaysSuccess(reply.value) ==>
      r == Step(pg.(toast := Some("Login Failed")), [])
  {
    match reply
    case None => Step(pg.(toast := Some("Server Error")), [])
    case Some(data) =>
      if data == Null then Step(pg.(toast := Some("Server Error")), [])
      else if ReplySaysSuccess(data) then
        Step(pg.(toast := Some("Login Successful!"), adminBody := DashboardLoading), [Send(AnalyticsRequest)])
      else Step(pg.(toast := Some("Login Failed")), [])
  }

  /** `loadAdminDashboard` once the analytics arrive: the two figures are shown. */
  function ShowDashboard(pg: Page, a: Analytics): (r: Page)
    ensures r.adminBody == Dashboard(a.totalClicks, a.revenue)
    ensures r.(adminBody := pg.adminBody) == pg
  {
    pg.(adminBody := Dashboard(a.totalClicks, a.revenue))
  }
}
